=== FILE: README.md ===
# Word-set store: a Dafny model of the words route

This project models the server side of a small word collection. One route file
keeps a table of unique words in PostgreSQL and serves three requests:

- `GET` reads every word back, newest first.
- `POST` takes a batch of raw candidates. It cleans each one, validates the
  batch, and inserts the words in one transaction, skipping words already
  stored.
- `DELETE` takes `{words}` and removes each listed word in one transaction.

The model is functional:

- The table is an immutable `Store`: its rows `(id, word)` in ascending id order, plus the next value of the serial id.
- `Valid` is the table invariant:
  - ids increase;
  - every id is below the next serial value;
  - words are unique;
  - every stored word is a valid word already in cleaned form.
- Each handler is a pure function. It takes the table, the request body as the JSON parser left it, and how the database behaves during the request. It returns the table afterwards and the response.
- A transaction is all-or-nothing: the result is either the committed table or the old one.

Files:

- `alphabet.dfy` (module `Alphabet`): the bracket class `[а-яА-ЯөӨүҮёЁa-zA-Z\s]` shared by both regular expressions, and JavaScript's `\s`.
- `words.dfy` (module `Words`): `MAX_WORD_LENGTH`, `MAX_WORDS_PER_REQUEST`, stripping, trimming, `cleanWord` and `isValidWord`.
- `store.dfy` (module `WordStore`): the table, the conditional insert, the delete, and the read-back ordered by id descending.
- `route.dfy` (module `Route`): request bodies, database behaviour, responses with their status codes, and the `GET`, `POST` and `DELETE` transitions.

Modelling choices taken from the code:

- The route cleans first, then validates the cleaned words. A raw candidate such as `"wrong1"` is therefore accepted and stored as `"wrong"`. It is not rejected.
- `addedWords` is the whole cleaned list and `addedCount` is its length. Both include words that were already stored. Re-posting a batch returns the same response again; `addedWords` does not become empty.
- `deletedCount` is the length of the request list, whether or not those words were stored.
- A batch is applied in list order. All statements of a transaction go through one client connection, and that connection runs its queries in the order they were issued.
- Both regular expressions and `String.prototype.trim` use the same whitespace set: the ECMAScript WhiteSpace and LineTerminator code points.
- Every letter in the class lies in the Basic Multilingual Plane. So after cleaning, one Dafny `char` is one UTF-16 code unit, and the length check sees the same length the code sees.
- A database failure before `COMMIT` rolls the transaction back and answers 500. A failure in the read-back after `COMMIT` also answers 500, but the table has already changed. `Database.FailsAfterCommit` models this case.
- In `POST`, an array element that is not a string makes `cleanWord` throw. The whole request then answers 500, but only after the batch cap has been checked.

## Model

| member | source | states |
|---|---|---|
| `Alphabet.IsWhitespace` | app/api/words/route.ts:17 | JavaScript's `\s`, which is also the set `trim` removes: the ECMAScript WhiteSpace and LineTerminator code points |
| `Alphabet.InAlphabet` | app/api/words/route.ts:12 | membership in the bracket class `[а-яА-ЯөӨүҮёЁa-zA-Z\s]` shared by both regular expressions |
| `Words.MAX_WORD_LENGTH` | app/api/words/route.ts:8 | the longest word `isValidWord` accepts has 50 characters |
| `Words.MAX_WORDS_PER_REQUEST` | app/api/words/route.ts:9 | the largest batch a POST accepts has 100 entries |
| `Words.Strip` | app/api/words/route.ts:17 | the stripped word holds only characters of the class and is no longer than the input |
| `Words.StripAppend` | app/api/words/route.ts:17 | stripping works character by character: it distributes over concatenation |
| `Words.StripCounts` | app/api/words/route.ts:17 | every character of the class keeps its number of occurrences; every other character disappears |
| `Words.StripFixesExactlyAlphabetWords` | app/api/words/route.ts:17 | stripping leaves a word unchanged exactly when the word is alphabet-only |
| `Words.Trim` | app/api/words/route.ts:17 | the trimmed word neither starts nor ends with whitespace and is no longer than the input |
| `Words.TrimSplits` | app/api/words/route.ts:17 | what trimming removes is whitespace only, on both sides of the result |
| `Words.TrimReturnsTheMiddle` | app/api/words/route.ts:17 | for any whitespace around a middle without outer whitespace, trimming returns exactly that middle |
| `Words.TrimFixesExactlyUntrimmable` | app/api/words/route.ts:17 | trimming leaves a word unchanged exactly when it has no outer whitespace |
| `Words.CleanWord` | app/api/words/route.ts:15-18 | a cleaned word holds only characters of the class, has no leading or trailing whitespace, and is no longer than the raw word |
| `Words.CleanWordIdempotent` | app/api/words/route.ts:15-18 | cleaning a cleaned word changes nothing |
| `Words.CleanWordFixedPoints` | app/api/words/route.ts:15-18 | cleaning leaves a word unchanged exactly when it is alphabet-only and has no outer whitespace |
| `Words.CleanWordIsStrippedMiddle` | app/api/words/route.ts:15-18 | the stripped word is the cleaned word padded with whitespace on both sides |
| `Words.CleanWordDropsDigit` | app/api/words/route.ts:15-18 | `"wrong1"` cleans to `"wrong"`, and `"wrong"` is a valid word |
| `Words.CleanWordEmptiesForeignCandidate` | app/api/words/route.ts:17 | a candidate made only of digits, punctuation and spaces cleans to the empty word |
| `Words.MatchesClassPlus` | app/api/words/route.ts:12 | the regular expression `^[class]+$` as a left-to-right matcher; `Words.MatchesClassPlusSpec` characterises it |
| `Words.MatchesClassPlusSpec` | app/api/words/route.ts:12 | the regular expression `^[class]+$` accepts exactly the non-empty alphabet-only words |
| `Words.IsValidWord` | app/api/words/route.ts:11-13 | `isValidWord`: the regular expression matches and the length is at most 50; `Words.IsValidWordSpec` characterises it |
| `Words.IsValidWordSpec` | app/api/words/route.ts:11-13 | `isValidWord` holds iff the word is non-empty, alphabet-only and at most 50 characters long |
| `Words.LengthBoundary` | app/api/words/route.ts:8-13 | a 50-letter word is valid and a 51-letter word is not |
| `Words.CleanedWordValidity` | app/api/words/route.ts:52-53 | a non-empty cleaned word is valid iff it has at most 50 characters |
| `WordStore.Valid` | app/api/words/route.ts:23-63 | the table invariant: ids strictly increase in row order and stay below the next serial value (the serial `id` behind `ORDER BY id DESC`), no word is stored twice (the unique `word` column that `ON CONFLICT (word)` relies on), and every stored word is valid and in cleaned form |
| `WordStore.InsertWord` | app/api/words/route.ts:63 | a conditional insert adds the word to the word set, keeps every old row in place, and gives a new row an id from the serial range; a word already stored leaves the table unchanged |
| `WordStore.InsertWordKeepsValid` | app/api/words/route.ts:63 | inserting a storable word keeps the table invariant (unique words, increasing ids) |
| `WordStore.InsertAll` | app/api/words/route.ts:62-65 | after a batch of inserts the word set is the old set united with the batch; old rows are a prefix; a batch of stored words changes nothing |
| `WordStore.InsertAllNewRows` | app/api/words/route.ts:62-65 | the rows a batch adds hold batch words that were absent, with ids from the serial range, newer than every old row |
| `WordStore.InsertAllKeepsValid` | app/api/words/route.ts:62-65 | a batch of storable words keeps the table invariant |
| `WordStore.Without` | app/api/words/route.ts:103 | a row survives the delete of a word exactly when it holds a different word |
| `WordStore.WithoutKeepsIdsIncreasing` | app/api/words/route.ts:103 | deleting rows keeps the ids of the remaining rows increasing |
| `WordStore.WithoutKeepsWordsUnique` | app/api/words/route.ts:103 | deleting rows keeps the remaining words unique |
| `WordStore.DeleteWord` | app/api/words/route.ts:103 | one delete removes exactly the row holding the word, if any, and leaves the serial value alone |
| `WordStore.DeleteWordKeepsValid` | app/api/words/route.ts:103 | one delete keeps the table invariant |
| `WordStore.DeleteAll` | app/api/words/route.ts:102-105 | after a batch of deletes, a row remains exactly when it was there and its word is not listed |
| `WordStore.DeleteAllKeepsValid` | app/api/words/route.ts:102-105 | a batch of deletes keeps the table invariant |
| `WordStore.DeleteAllKeepsOrder` | app/api/words/route.ts:102-105 | a batch of deletes keeps ids increasing and words unique, whatever words the table holds |
| `WordStore.EmptyValid` | app/api/words/route.ts:63 | the empty table with the serial sequence at 1 satisfies the table invariant and holds no word |
| `WordStore.SameRowsSameWords` | app/api/words/route.ts:23-24 | two tables with the same rows read back the same word set |
| `WordStore.InsertThenDeleteRestores` | app/api/words/route.ts:102-105 | deleting a batch of previously absent words after inserting it restores the old rows, ids included, and the old word set |
| `WordStore.NewestFirst` | app/api/words/route.ts:23-24 | position i of the read-back holds the word of the i-th row counted from the newest |
| `WordStore.ReadAll` | app/api/words/route.ts:20-28 | `getWords` returns one word per row, position i holding the word of the i-th row counted from the newest |
| `WordStore.ReadAllSet` | app/api/words/route.ts:20-28 | the read-back holds exactly the stored words, whatever the table |
| `WordStore.ReadAllOrdered` | app/api/words/route.ts:23-24 | on a table with increasing ids and unique words, the read-back repeats no word, and an earlier word always sits in a row with a larger id |
| `WordStore.ReadAllNewestFirst` | app/api/words/route.ts:20-28 | on a table with increasing ids and unique words, the read-back lists every stored word exactly once, and an earlier word always sits in a row with a larger id (`ORDER BY id DESC`) |
| `Route.Status` | app/api/words/route.ts:30-127 | a response is 200 exactly when it is not a rejection, 400 exactly when it is a rejection other than a server error, and 500 exactly for the server error |
| `Route.Get` | app/api/words/route.ts:30-38 | GET answers 200, always as a word list, exactly when the database works, with one word per row, every stored word present, newest row first; otherwise it answers a 500 server error |
| `Route.CleanBatch` | app/api/words/route.ts:52 | cleaning a batch fails exactly when some element is not a string; otherwise every surviving word is non-empty, alphabet-only and free of outer whitespace, and the survivors are exactly the non-empty cleaned forms of the elements |
| `Route.CleanedTexts` | app/api/words/route.ts:52 | `newWords.map(cleanWord)`: one cleaned text per element, at the element's position |
| `Route.CleanBatchKeepsOrder` | app/api/words/route.ts:52 | the cleaned batch is the non-empty cleaned texts in position order, one word per such position, so repetitions are kept and `addedCount` counts them |
| `Route.InvalidOf` | app/api/words/route.ts:53 | the invalid list holds exactly the batch words that fail `isValidWord` |
| `Route.CleanedInvalidMeansTooLong` | app/api/words/route.ts:52-53 | after cleaning, a word is reported invalid exactly when it is longer than 50 characters |
| `Route.CommitInsert` | app/api/words/route.ts:58-83 | the POST transaction leaves either the old table or the table with the whole batch inserted, never a part of it; a failure before the commit rolls back to the old table; otherwise the batch is committed, also when the read-back then fails; the answer is a success exactly when the database works |
| `Route.Post` | app/api/words/route.ts:40-88 | a 400 answer leaves the table untouched, and so does every other failure unless it came after the commit; otherwise the table is either unchanged or has the whole cleaned batch inserted |
| `Route.PostBatch` | app/api/words/route.ts:48-83 | the array branch of POST: a 400 answer leaves the table untouched, and so does every other failure unless it came after the commit; otherwise the table is either unchanged or has the whole cleaned batch inserted |
| `Route.AcceptableBatch` | app/api/words/route.ts:48-56 | the batches that pass the cap and validation: at most 100 entries, all strings, every cleaned word at most 50 long |
| `Route.PostAccepted` | app/api/words/route.ts:48-58 | an acceptable batch passes the cap and validation and reaches the transaction with exactly its cleaned words |
| `Route.PostBadRequest` | app/api/words/route.ts:44-56 | POST answers 400 exactly when the body is not an array, the raw batch has more than 100 entries, or some cleaned word is longer than 50; the raw count alone decides the cap; a body that is not an array is rejected as `NotAnArray`, and a batch within the cap with an over-long cleaned word is rejected as `BadWords` listing exactly its invalid cleaned words; a 400 leaves the table untouched |
| `Route.AcceptedWordsStorable` | app/api/words/route.ts:52-56 | every word of a batch that passes validation is a valid word in cleaned form |
| `Route.PostSuccessTable` | app/api/words/route.ts:58-67 | after a successful POST the word set is the old set united with the cleaned batch, old rows keep their place and id, new rows are newer than every old row, and the invariant holds |
| `Route.HasInvalid` | app/api/words/route.ts:53-54 | the invalid-word list is non-empty exactly when some word of the batch fails `isValidWord` |
| `Route.PostServerError` | app/api/words/route.ts:40-88 | POST answers 500 exactly when the body cannot be parsed, a batch within the cap holds a non-string element, or an acceptable batch meets a failing database; a 200 is always an `Added` answer |
| `Route.PostRejectsUnacceptable` | app/api/words/route.ts:44-58 | a batch over the cap, with a non-string element, or with an over-long cleaned word is rejected before the transaction, and the table stays as it was |
| `Route.PostKeepsValid` | app/api/words/route.ts:40-88 | every POST keeps the table invariant, whatever the body and however the database behaves, including a failed read-back after the commit |
| `Route.CommitInsertResponse` | app/api/words/route.ts:67-77 | a committed insert answers with the batch it was given, its length, and the committed table read back newest first with `wordCount` its length |
| `Route.PostSuccessResponse` | app/api/words/route.ts:69-77 | a successful POST reports the whole cleaned batch as `addedWords`, with `addedCount` its length, `wordCount` the length of `words`, and `words` the committed table read back newest first |
| `Route.PostSucceedsExactly` | app/api/words/route.ts:44-77 | POST of an array succeeds iff the batch has at most 100 entries, all of them strings, every cleaned word is at most 50 long, and the database works; exactly 100 entries pass the cap |
| `Route.PostIdempotent` | app/api/words/route.ts:62-67 | posting an acceptable batch a second time leaves the table unchanged and repeats the same response |
| `Route.Delete` | app/api/words/route.ts:90-127 | DELETE answers 400 `NotAnArray` exactly when `words` is not an array; 500 exactly when the body cannot be read or the database fails; a `Deleted` answer exactly for a `{words}` array with a working database, and every 200 is such an answer; there is no cleaning, validation or cap; a failure before the commit leaves the table untouched, and otherwise every listed word is deleted, also when the read-back then fails |
| `Route.DeleteSuccessTable` | app/api/words/route.ts:102-107 | after a DELETE no listed word remains, every unlisted row keeps its word and id, no row appears, deleting only absent words changes no row, and the invariant holds |
| `Route.DeleteSuccessResponse` | app/api/words/route.ts:109-116 | on a table with increasing ids and unique words, `deletedCount` is the length of the request list whether or not the words were stored; `wordCount` is the length of `words`, the committed table read back newest first |
| `Route.DeleteKeepsValid` | app/api/words/route.ts:90-127 | every DELETE keeps the table invariant, whatever the body and however the database behaves |
| `Route.DeleteAbsentKeepsRows` | app/api/words/route.ts:102-105 | deleting only words no row holds leaves the rows exactly as they were |
| `Route.WithoutAbsent` | app/api/words/route.ts:102-105 | a batch of deletes matching no row changes no row |
| `Route.WithoutNoMatch` | app/api/words/route.ts:103 | a delete matching no row changes no row |
| `Route.PostThenDeleteRestores` | app/api/words/route.ts:62-65 | a successful POST whose cleaned words were all absent, followed by a DELETE of the reported `addedWords`, restores the old rows and word set |
| `Route.CommitThenDeleteRestores` | app/api/words/route.ts:58-77 | a committed insert of absent words, followed by a DELETE of the reported `addedWords`, restores the old rows and word set |

## Left out

- The `pg` pool, connecting and releasing a client, and the `BEGIN`, `COMMIT` and `ROLLBACK` statements are left out, because they are I/O. A transaction is an atomic state update, and the `Database` parameter decides whether it fails before or after the commit.
- `NextResponse` and JSON parsing are left out for the same reason. A body is one of the variants `PostBody` or `DeleteBody`, and an error response carries only its kind and status, not its Mongolian message text. The `console.error` logging is not modelled.
- Concurrency within a request is not modelled. `Promise.all` is modelled as the batch applied in list order, which is the order in which one connection runs its queries.
- Concurrency between requests is not modelled either. Each handler is one atomic transition, and its read-back sees its own committed table, with no other writer in between.
- Ids are simplified. The serial sequence advances only for rows actually inserted. PostgreSQL also uses up values on conflicting inserts and on rolled-back transactions. The model relies on ids only for their order, and that is the same either way.
- The table schema (a serial `id` and a unique constraint on `word`) is not in the repository. The model takes it from `ORDER BY id` and `ON CONFLICT (word)`, and `WordStore.Valid` states it.
- The whitespace set follows the current Unicode space separators. Lone UTF-16 surrogates cannot be represented as Dafny characters. The class holds no surrogate, so stripping removes them exactly as it removes any other character outside the class.
- `DELETE` elements that are not strings are left out, and the model takes `words` as a list of strings. The `pg` driver sends `null` as SQL NULL, and `word = NULL` matches no row, so such an element acts like an absent word. It sends other values as text, and they match the row holding that text, if any. In both cases the element still counts towards `deletedCount`.
- The `GET` error body lacks `success: false`; the model uses the same `Rejected(ServerError)` for it.
- The client (`components/app-page.tsx`) and the layout (`app/layout.tsx`) are left out: they are user interface, `fetch`, clipboard, notifications and font loading. The client's save sends `JSON.stringify` of a single string rather than an array. The route answers such a body with a 400 "not an array" (`Route.PostBadRequest`).

=== FILE: alphabet.dfy ===
/** The character classes of the word route.

    Both regular expressions of the route use the same bracket class,
    `[а-яА-ЯөӨүҮёЁa-zA-Z\s]`: the basic Russian Cyrillic block in both cases,
    the three extra Mongolian letters (ө, ү) and ё in both cases, the Latin
    letters, and JavaScript's `\s`. Every letter of the class lies in the Basic
    Multilingual Plane, so one Dafny `char` stands for one UTF-16 code unit
    for every character the class accepts.
 */
module Alphabet {

  /** JavaScript's `\s`: the ECMAScript WhiteSpace and LineTerminator code
      points. `String.prototype.trim` strips exactly the same set, so one
      predicate serves both the regular expressions and the trim. */
  predicate IsWhitespace(c: char) {
    || c == '\t' || c == '\n' || c == '\U{000B}' || c == '\U{000C}' || c == '\r'
    || c == ' ' || c == '\U{00A0}' || c == '\U{1680}'
    || ('\U{2000}' <= c <= '\U{200A}')
    || c == '\U{2028}' || c == '\U{2029}' || c == '\U{202F}' || c == '\U{205F}'
    || c == '\U{3000}' || c == '\U{FEFF}'
  }

  /** `а-я` (U+0430..U+044F), `А-Я` (U+0410..U+042F), `өӨ` (U+04E9, U+04E8),
      `үҮ` (U+04AF, U+04AE) and `ёЁ` (U+0451, U+0401). */
  predicate IsCyrillicLetter(c: char) {
    || ('\U{0430}' <= c <= '\U{044F}')
    || ('\U{0410}' <= c <= '\U{042F}')
    || c == '\U{04E9}' || c == '\U{04E8}'
    || c == '\U{04AF}' || c == '\U{04AE}'
    || c == '\U{0451}' || c == '\U{0401}'
  }

  /** `a-z` and `A-Z`. */
  predicate IsLatinLetter(c: char) {
    ('a' <= c <= 'z') || ('A' <= c <= 'Z')
  }

  /** Membership in the route's bracket class. */
  predicate InAlphabet(c: char) {
    IsCyrillicLetter(c) || IsLatinLetter(c) || IsWhitespace(c)
  }

  /** Every character of `w` is in the bracket class (the empty word included). */
  predicate AllInAlphabet(w: string) {
    forall i :: 0 <= i < |w| ==> InAlphabet(w[i])
  }

  /** Every character of `w` is whitespace (the empty word included). */
  predicate AllWhitespace(w: string) {
    forall i :: 0 <= i < |w| ==> IsWhitespace(w[i])
  }

  /** Neither the first nor the last character of `w` is whitespace. */
  predicate NoOuterWhitespace(w: string) {
    |w| == 0 || (!IsWhitespace(w[0]) && !IsWhitespace(w[|w| - 1]))
  }
}

=== FILE: route.dfy ===
/** The three handlers of the word route, as state transitions of the table.

    Each handler takes the table, the request body as the JSON parser left
    it, and the behaviour of the database during the request, and returns
    the table afterwards together with the response. A transaction either
    commits all of its statements or none of them. */
module Route {
  import opened Alphabet
  import opened Words
  import opened WordStore

  datatype Option<T> = None | Some(value: T)

  /** One element of a parsed JSON array. */
  datatype Element = Text(text: string) | NonText

  /** The body of a POST after `request.json()`. */
  datatype PostBody =
    | PostUnparsable                   // `request.json()` throws
    | PostNotArray                     // well-formed JSON, but not an array
    | PostArray(items: seq<Element>)

  /** The body of a DELETE after `const { words } = await request.json()`. */
  datatype DeleteBody =
    | DeleteUnreadable                 // not JSON, or `null`: the destructuring throws
    | DeleteNoWordsArray               // `words` is missing or not an array
    | DeleteWords(words: seq<string>)

  /** How the database behaves during one request. A failure before the
      commit (connecting, `BEGIN`, one of the statements, `COMMIT`) rolls the
      transaction back; a failure after it happens in the read-back. */
  datatype Database = Available | FailsBeforeCommit | FailsAfterCommit

  /** The error kinds the route reports. */
  datatype Failure =
    | NotAnArray                       // the batch is not an array
    | TooManyWords                     // the raw batch is over the cap
    | BadWords(words: seq<string>)     // cleaned words that fail validation
    | ServerError                      // anything thrown inside the handler

  datatype Response =
    | WordList(words: seq<string>)
    | Added(wordCount: nat, words: seq<string>, addedWords: seq<string>, addedCount: nat)
    | Deleted(wordCount: nat, words: seq<string>, deletedCount: nat)
    | Rejected(failure: Failure)

  /** The table after a request and the response sent back. */
  datatype Reply = Reply(store: Store, response: Response)

  /** The HTTP status of a response. */
  function Status(r: Response): (code: nat)
    ensures code == 200 <==> !r.Rejected?
    ensures code == 400 <==> r.Rejected? && r.failure != ServerError
    ensures code == 500 <==> r == Rejected(ServerError)
  {
    match r
    case Rejected(f) => if f == ServerError then 500 else 400
    case _ => 200
  }

  // ---------------------------------------------------------------------
  // GET
  // ---------------------------------------------------------------------

  /** `GET`: every stored word, newest first, or a server error. */
  function Get(s: Store, db: Database): (r: Response)
    ensures Status(r) == 200 <==> db == Available
    ensures r.WordList? <==> db == Available
    ensures r.WordList? ==> |r.words| == |s.rows| && AsSet(r.words) == WordSet(s)
    ensures r.WordList? ==> forall i :: 0 <= i < |r.words| ==> r.words[i] == s.rows[|s.rows| - 1 - i].word
    ensures Status(r) != 200 ==> r == Rejected(ServerError)
  {
    if db == Available then
      ReadAllSet(s);
      WordList(ReadAll(s))
    else Rejected(ServerError)
  }

  // ---------------------------------------------------------------------
  // POST
  // ---------------------------------------------------------------------

  /** Every element of the batch is a string. */
  predicate AllText(items: seq<Element>) {
    forall i :: 0 <= i < |items| ==> items[i].Text?
  }

  /** The cleaned text of one element (the empty word for an element that
      is not a string, on which `cleanWord` throws). */
  function CleanedText(e: Element): string {
    if e.Text? then CleanWord(e.text) else []
  }

  /** `newWords.map(cleanWord).filter(word => word.length > 0)`. Calling
      `cleanWord` on an element that is not a string throws, so one such
      element anywhere makes the whole step throw. */
  function CleanBatch(items: seq<Element>): (r: Option<seq<string>>)
    ensures r.None? <==> exists i :: 0 <= i < |items| && items[i].NonText?
    ensures r.Some? ==> |r.value| <= |items|
    ensures r.Some? ==> forall w :: w in r.value ==> w != [] && AllInAlphabet(w) && NoOuterWhitespace(w)
    ensures r.Some? ==> forall i :: 0 <= i < |items| && CleanedText(items[i]) != [] ==> CleanedText(items[i]) in r.value
    ensures r.Some? ==> forall w :: w in r.value ==> exists i :: 0 <= i < |items| && CleanedText(items[i]) == w
    decreases |items|
  {
    if |items| == 0 then Some([])
    else
      match items[0]
      case NonText => None
      case Text(t) =>
        var rest := CleanBatch(items[1..]);
        assert forall i :: 1 <= i < |items| ==> items[i] == items[1..][i - 1];
        if rest.None? then
          None
        else
          var c := CleanWord(t);
          assert c == CleanedText(items[0]);
          var r := if c == [] then rest.value else [c] + rest.value;
          assert forall w :: w in r <==> w in rest.value || (c != [] && w == c);
          Some(r)
  }

  /** The cleaned text of each element, position by position. */
  function CleanedTexts(items: seq<Element>): (cs: seq<string>)
    ensures |cs| == |items|
    ensures forall i :: 0 <= i < |items| ==> cs[i] == CleanedText(items[i])
    decreases |items|
  {
    if |items| == 0 then []
    else
      assert forall i :: 1 <= i < |items| ==> items[i] == items[1..][i - 1];
      [CleanedText(items[0])] + CleanedTexts(items[1..])
  }

  /** `ws` holds non-empty words of `cs`, the k-th taken from position
      `idx[k]`. */
  ghost predicate Picks(cs: seq<string>, ws: seq<string>, idx: seq<nat>) {
    && |idx| == |ws|
    && (forall k :: 0 <= k < |idx| ==> idx[k] < |cs| && ws[k] == cs[idx[k]] && |ws[k]| > 0)
  }

  /** The positions grow. */
  ghost predicate Increasing(idx: seq<nat>) {
    forall k, l :: 0 <= k < l < |idx| ==> idx[k] < idx[l]
  }

  /** Every position of a non-empty word of `cs` is listed. */
  ghost predicate Covers(cs: seq<string>, idx: seq<nat>) {
    forall i :: 0 <= i < |cs| && |cs[i]| > 0 ==> i in idx
  }

  /** `ws` is `cs` with the empty words dropped: `idx` lists, in increasing
      order, exactly the positions of the non-empty words of `cs`, and `ws`
      holds those words, one per position. */
  ghost predicate NonEmptyInOrder(cs: seq<string>, ws: seq<string>, idx: seq<nat>) {
    Picks(cs, ws, idx) && Increasing(idx) && Covers(cs, idx)
  }

  /** The cleaned batch keeps the order and the repetitions of the raw
      batch: it is the non-empty cleaned texts in position order, so
      `["a", "a"]` cleans to two words. */
  lemma {:induction false} CleanBatchKeepsOrder(items: seq<Element>) returns (idx: seq<nat>)
    requires AllText(items)
    ensures NonEmptyInOrder(CleanedTexts(items), CleanBatch(items).value, idx)
    decreases |items|
  {
    if |items| == 0 {
      idx := [];
    } else {
      var c := CleanBatchStep(items);
      var rest := CleanBatchKeepsOrder(items[1..]);
      if c == [] {
        idx := PrependEmpty(c, CleanedTexts(items[1..]), CleanBatch(items[1..]).value, rest);
      } else {
        idx := PrependWord(c, CleanedTexts(items[1..]), CleanBatch(items[1..]).value, rest);
      }
    }
  }

  /** One step of cleaning a batch: the first element's cleaned text goes in
      front of the cleaned rest, unless it is empty. */
  lemma CleanBatchStep(items: seq<Element>) returns (c: string)
    requires |items| > 0 && AllText(items)
    ensures items[0].Text? && c == CleanWord(items[0].text)
    ensures CleanBatch(items[1..]).Some?
    ensures CleanedTexts(items) == [c] + CleanedTexts(items[1..])
    ensures CleanBatch(items).value ==
      if c == [] then CleanBatch(items[1..]).value else [c] + CleanBatch(items[1..]).value
  {
    c := CleanWord(items[0].text);
  }

  /** Every position one place up. */
  function Shift(idx: seq<nat>): (r: seq<nat>)
    ensures |r| == |idx|
    ensures forall k :: 0 <= k < |r| ==> r[k] == idx[k] + 1
    decreases |idx|
  {
    if |idx| == 0 then [] else [idx[0] + 1] + Shift(idx[1..])
  }

  /** An empty word in front is dropped: the positions move one place up. */
  lemma PrependEmpty(c: string, cs: seq<string>, ws: seq<string>, rest: seq<nat>) returns (idx: seq<nat>)
    requires |c| == 0
    requires NonEmptyInOrder(cs, ws, rest)
    ensures NonEmptyInOrder([c] + cs, ws, idx)
  {
    idx := Shift(rest);
    PicksShift(c, cs, ws, rest);
    IncreasingShift(rest);
    CoversShift(c, cs, rest);
  }

  /** A non-empty word in front is kept, at position 0, before the rest. */
  lemma PrependWord(c: string, cs: seq<string>, ws: seq<string>, rest: seq<nat>) returns (idx: seq<nat>)
    requires |c| > 0
    requires NonEmptyInOrder(cs, ws, rest)
    ensures NonEmptyInOrder([c] + cs, [c] + ws, idx)
  {
    idx := [0] + Shift(rest);
    PicksShift(c, cs, ws, rest);
    PicksPrepend(c, cs, ws, Shift(rest));
    IncreasingShift(rest);
    CoversShift(c, cs, rest);
    assert idx[0] == 0;
    forall i | 0 < i < |idx| ensures idx[i] == Shift(rest)[i - 1] { }
  }

  /** Moving every position one place up follows a word put in front. */
  lemma PicksShift(c: string, cs: seq<string>, ws: seq<string>, rest: seq<nat>)
    requires Picks(cs, ws, rest)
    ensures Picks([c] + cs, ws, Shift(rest))
  {
    var all := [c] + cs;
    var idx := Shift(rest);
    forall k | 0 <= k < |idx| ensures idx[k] < |all| && ws[k] == all[idx[k]] {
      assert all[idx[k]] == cs[rest[k]];
    }
  }

  /** A non-empty word in front is picked from position 0. */
  lemma PicksPrepend(c: string, cs: seq<string>, ws: seq<string>, idx: seq<nat>)
    requires |c| > 0
    requires Picks([c] + cs, ws, idx)
    ensures Picks([c] + cs, [c] + ws, [0] + idx)
  {
    var vs := [c] + ws;
    var jdx := [0] + idx;
    forall k | 0 < k < |jdx| ensures jdx[k] == idx[k - 1] && vs[k] == ws[k - 1] {
    }
  }

  /** Shifted positions still grow, also behind a new position 0. */
  lemma IncreasingShift(rest: seq<nat>)
    requires Increasing(rest)
    ensures Increasing(Shift(rest)) && Increasing([0] + Shift(rest))
  {
    var idx := [0] + Shift(rest);
    forall k, l | 0 <= k < l < |idx| ensures idx[k] < idx[l] {
      assert idx[l] == rest[l - 1] + 1;
      if k > 0 { assert idx[k] == rest[k - 1] + 1; }
    }
  }

  /** Shifted positions cover the non-empty words behind a word put in
      front. */
  lemma CoversShift(c: string, cs: seq<string>, rest: seq<nat>)
    requires Covers(cs, rest)
    ensures forall i :: 0 < i <= |cs| && |([c] + cs)[i]| > 0 ==> i in Shift(rest)
  {
    var all := [c] + cs;
    var idx := Shift(rest);
    forall i | 0 < i < |all| && |all[i]| > 0 ensures i in idx {
      assert all[i] == cs[i - 1];
      var k :| 0 <= k < |rest| && rest[k] == i - 1;
      assert idx[k] == i;
    }
  }

  /** `cleanedNewWords.filter(word => !isValidWord(word))`. */
  function InvalidOf(ws: seq<string>): (r: seq<string>)
    ensures forall w :: w in r <==> w in ws && !IsValidWord(w)
    decreases |ws|
  {
    if |ws| == 0 then []
    else (if IsValidWord(ws[0]) then [] else [ws[0]]) + InvalidOf(ws[1..])
  }

  /** After cleaning, a word can only be reported invalid for its length. */
  lemma CleanedInvalidMeansTooLong(items: seq<Element>)
    requires AllText(items)
    ensures forall w :: w in InvalidOf(CleanBatch(items).value) <==>
                        w in CleanBatch(items).value && |w| > MAX_WORD_LENGTH
  {
    forall w | w in CleanBatch(items).value {
      IsValidWordSpec(w);
    }
  }

  /** The transaction of a POST and the response built from its outcome. */
  function CommitInsert(s: Store, cleaned: seq<string>, db: Database): (rep: Reply)
    ensures rep.store == s || rep.store == InsertAll(s, cleaned)
    ensures db == FailsBeforeCommit ==> rep.store == s
    ensures db != FailsBeforeCommit ==> rep.store == InsertAll(s, cleaned)
    ensures rep.response.Added? <==> db == Available
  {
    match db
    case FailsBeforeCommit => Reply(s, Rejected(ServerError))
    case FailsAfterCommit => Reply(InsertAll(s, cleaned), Rejected(ServerError))
    case Available =>
      var t := InsertAll(s, cleaned);
      var words := ReadAll(t);
      Reply(t, Added(|words|, words, cleaned, |cleaned|))
  }

  /** `POST`: check the shape, then handle the batch. */
  function Post(s: Store, body: PostBody, db: Database): (rep: Reply)
    ensures Status(rep.response) == 400 ==> rep.store == s
    ensures Status(rep.response) != 200 && db != FailsAfterCommit ==> rep.store == s
    ensures rep.store == s || (body.PostArray? && CleanBatch(body.items).Some? &&
                               rep.store == InsertAll(s, CleanBatch(body.items).value))
  {
    match body
    case PostUnparsable => Reply(s, Rejected(ServerError))
    case PostNotArray => Reply(s, Rejected(NotAnArray))
    case PostArray(items) => PostBatch(s, items, db)
  }

  /** The array branch of `POST`: the cap, cleaning, validation, the
      transaction and the read-back. */
  function PostBatch(s: Store, items: seq<Element>, db: Database): (rep: Reply)
    ensures Status(rep.response) == 400 ==> rep.store == s
    ensures Status(rep.response) != 200 && db != FailsAfterCommit ==> rep.store == s
    ensures rep.store == s || (CleanBatch(items).Some? && rep.store == InsertAll(s, CleanBatch(items).value))
  {
    if |items| > MAX_WORDS_PER_REQUEST then Reply(s, Rejected(TooManyWords))
    else
      match CleanBatch(items)
      case None => Reply(s, Rejected(ServerError))
      case Some(cleaned) =>
        var invalid := InvalidOf(cleaned);
        if |invalid| > 0 then Reply(s, Rejected(BadWords(invalid)))
        else CommitInsert(s, cleaned, db)
  }

  /** The batches a POST accepts: within the cap, only strings, and every
      cleaned word within the length limit. */
  predicate AcceptableBatch(items: seq<Element>) {
    && |items| <= MAX_WORDS_PER_REQUEST
    && AllText(items)
    && (forall i :: 0 <= i < |items| ==> |CleanWord(items[i].text)| <= MAX_WORD_LENGTH)
  }

  /** An acceptable batch reaches the transaction with its cleaned words. */
  lemma PostAccepted(s: Store, items: seq<Element>, db: Database)
    requires AcceptableBatch(items)
    ensures CleanBatch(items).Some?
    ensures Post(s, PostArray(items), db) == CommitInsert(s, CleanBatch(items).value, db)
  {
    var cleaned := CleanBatch(items).value;
    forall w | w in cleaned ensures IsValidWord(w) {
      var i :| 0 <= i < |items| && CleanedText(items[i]) == w;
      IsValidWordSpec(w);
    }
    NoInvalidWords(cleaned);
  }

  /** A list of valid words has no invalid words. */
  lemma NoInvalidWords(ws: seq<string>)
    requires forall w :: w in ws ==> IsValidWord(w)
    ensures InvalidOf(ws) == []
  {
    if |InvalidOf(ws)| > 0 {
      assert InvalidOf(ws)[0] in InvalidOf(ws);
    }
  }

  /** A POST is a bad request exactly when the body is not an array, the
      raw batch is over the cap, or some cleaned word is over the length
      limit; the cap alone decides `TooManyWords`; and a bad request leaves
      the table as it was. */
  lemma PostBadRequest(s: Store, body: PostBody, db: Database)
    ensures var rep := Post(s, body, db);
      Status(rep.response) == 400 <==>
        || body.PostNotArray?
        || (body.PostArray? && |body.items| > MAX_WORDS_PER_REQUEST)
        || (body.PostArray? && CleanBatch(body.items).Some? &&
            exists w :: w in CleanBatch(body.items).value && |w| > MAX_WORD_LENGTH)
    ensures body.PostArray? ==>
      (Post(s, body, db).response == Rejected(TooManyWords) <==> |body.items| > MAX_WORDS_PER_REQUEST)
    ensures Status(Post(s, body, db).response) == 400 ==> Post(s, body, db).store == s
    ensures body.PostNotArray? ==> Post(s, body, db).response == Rejected(NotAnArray)
    ensures body.PostArray? && |body.items| <= MAX_WORDS_PER_REQUEST && CleanBatch(body.items).Some? &&
            (exists w :: w in CleanBatch(body.items).value && |w| > MAX_WORD_LENGTH) ==>
              Post(s, body, db).response == Rejected(BadWords(InvalidOf(CleanBatch(body.items).value)))
  {
    if body.PostArray? && |body.items| <= MAX_WORDS_PER_REQUEST && CleanBatch(body.items).Some? {
      var cleaned := CleanBatch(body.items).value;
      CleanedInvalidMeansTooLong(body.items);
      HasInvalid(cleaned);
      if w :| w in cleaned && |w| > MAX_WORD_LENGTH {
        IsValidWordSpec(w);
        assert w in InvalidOf(cleaned);
      }
    }
  }

  /** A list has an invalid word exactly when `InvalidOf` is not empty. */
  lemma HasInvalid(ws: seq<string>)
    ensures |InvalidOf(ws)| > 0 <==> exists w :: w in ws && !IsValidWord(w)
  {
    if |InvalidOf(ws)| > 0 {
      assert InvalidOf(ws)[0] in InvalidOf(ws);
    }
  }

  /** Every cleaned word of an accepted batch is a storable word. */
  lemma AcceptedWordsStorable(items: seq<Element>)
    requires AcceptableBatch(items)
    ensures CleanBatch(items).Some?
    ensures forall w :: w in CleanBatch(items).value ==> IsStorable(w)
  {
    CleanedInvalidMeansTooLong(items);
    forall w | w in CleanBatch(items).value ensures IsStorable(w) {
      IsValidWordSpec(w);
      CleanWordFixedPoints(w);
    }
  }

  /** A POST that succeeds changes the table this way: it gains exactly the
      cleaned words that were absent, every old row keeps its place and id,
      new rows are newer than every old row, and the invariant holds. */
  lemma PostSuccessTable(s: Store, items: seq<Element>)
    requires Valid(s)
    requires AcceptableBatch(items)
    ensures CleanBatch(items).Some?
    ensures var t := Post(s, PostArray(items), Available).store;
      && Valid(t)
      && WordSet(t) == WordSet(s) + AsSet(CleanBatch(items).value)
      && s.rows <= t.rows
      && (forall k :: |s.rows| <= k < |t.rows| ==> t.rows[k].id >= s.nextId)
  {
    PostAccepted(s, items, Available);
    var cleaned := CleanBatch(items).value;
    AcceptedWordsStorable(items);
    InsertAllKeepsValid(s, cleaned);
    InsertAllNewRows(s, cleaned);
  }

  /** A committed insert answers with the batch it was given and the
      committed table read back newest first. */
  lemma CommitInsertResponse(s: Store, cleaned: seq<string>)
    requires Valid(s)
    requires forall w :: w in cleaned ==> IsStorable(w)
    ensures var rep := CommitInsert(s, cleaned, Available);
      && rep.response.Added?
      && rep.response.addedWords == cleaned
      && rep.response.addedCount == |cleaned|
      && rep.response.wordCount == |rep.response.words|
      && AsSet(rep.response.words) == WordSet(rep.store)
      && OrderedByIdDesc(rep.store, rep.response.words)
  {
    InsertAllKeepsValid(s, cleaned);
    ReadAllNewestFirst(InsertAll(s, cleaned));
  }

  /** The response of a POST that succeeds echoes the whole cleaned batch,
      duplicates of stored words included, and reads the table back after
      the commit, newest first. */
  lemma PostSuccessResponse(s: Store, items: seq<Element>)
    requires Valid(s)
    requires AcceptableBatch(items)
    ensures CleanBatch(items).Some?
    ensures var rep := Post(s, PostArray(items), Available);
      && rep.response.Added?
      && rep.response.addedWords == CleanBatch(items).value
      && rep.response.addedCount == |rep.response.addedWords|
      && rep.response.wordCount == |rep.response.words|
      && AsSet(rep.response.words) == WordSet(rep.store)
      && OrderedByIdDesc(rep.store, rep.response.words)
  {
    PostAccepted(s, items, Available);
    AcceptedWordsStorable(items);
    CommitInsertResponse(s, CleanBatch(items).value);
  }

  /** When does a POST succeed: an array within the cap, only strings, every
      cleaned word within the length limit, and a working database. A batch
      of exactly `MAX_WORDS_PER_REQUEST` entries passes the cap. */
  lemma PostSucceedsExactly(s: Store, items: seq<Element>, db: Database)
    ensures Post(s, PostArray(items), db).response.Added? <==>
      AcceptableBatch(items) && db == Available
  {
    if AcceptableBatch(items) {
      PostAccepted(s, items, db);
    } else {
      PostRejectsUnacceptable(s, items, db);
    }
  }

  /** A POST answers 500 exactly when the body cannot be parsed, when a
      batch within the cap holds an element that is not a string, or when
      an acceptable batch meets a failing database; and a 200 is always an
      `Added` answer. */
  lemma PostServerError(s: Store, body: PostBody, db: Database)
    ensures Status(Post(s, body, db).response) == 500 <==>
      || body.PostUnparsable?
      || (body.PostArray? && |body.items| <= MAX_WORDS_PER_REQUEST &&
          (!AllText(body.items) || (AcceptableBatch(body.items) && db != Available)))
    ensures Status(Post(s, body, db).response) == 200 ==> Post(s, body, db).response.Added?
  {
    if body.PostArray? {
      PostSucceedsExactly(s, body.items, db);
      PostBadRequest(s, body, db);
      if AcceptableBatch(body.items) {
        PostAccepted(s, body.items, db);
      }
    }
  }

  /** A batch that is not acceptable never reaches the insert. */
  lemma PostRejectsUnacceptable(s: Store, items: seq<Element>, db: Database)
    requires !AcceptableBatch(items)
    ensures Post(s, PostArray(items), db).response.Rejected?
    ensures Post(s, PostArray(items), db).store == s
  {
    assert Post(s, PostArray(items), db) == PostBatch(s, items, db);
    if |items| <= MAX_WORDS_PER_REQUEST && CleanBatch(items).Some? {
      var cleaned := CleanBatch(items).value;
      assert |InvalidOf(cleaned)| > 0 by {
        var i :| 0 <= i < |items| && |CleanWord(items[i].text)| > MAX_WORD_LENGTH;
        var w := CleanWord(items[i].text);
        assert CleanedText(items[i]) == w && w in cleaned;
        IsValidWordSpec(w);
        assert w in InvalidOf(cleaned);
      }
    }
  }

  /** Every POST keeps the table invariant, whatever the body and however
      the database behaves: a rejected batch leaves the table alone, and an
      accepted one inserts only storable words, also when the read-back
      after the commit fails. */
  lemma PostKeepsValid(s: Store, body: PostBody, db: Database)
    requires Valid(s)
    ensures Valid(Post(s, body, db).store)
  {
    if body.PostArray? {
      if AcceptableBatch(body.items) {
        PostAccepted(s, body.items, db);
        AcceptedWordsStorable(body.items);
        InsertAllKeepsValid(s, CleanBatch(body.items).value);
      } else {
        PostRejectsUnacceptable(s, body.items, db);
      }
    }
  }

  /** Posting the same batch again changes nothing and repeats the same
      response: `ON CONFLICT (word) DO NOTHING` skips every word, and the
      response still lists every cleaned word as added. */
  lemma PostIdempotent(s: Store, items: seq<Element>)
    requires Valid(s)
    requires AcceptableBatch(items)
    ensures var first := Post(s, PostArray(items), Available);
            Post(first.store, PostArray(items), Available) == first
  {
    PostAccepted(s, items, Available);
    var cleaned := CleanBatch(items).value;
    var t := InsertAll(s, cleaned);
    PostAccepted(t, items, Available);
    assert forall w :: w in cleaned ==> w in WordSet(t);
    assert InsertAll(t, cleaned) == t;
  }

  // ---------------------------------------------------------------------
  // DELETE
  // ---------------------------------------------------------------------

  /** `DELETE`: check the shape, delete every listed word, read back. No
      cleaning, no validation and no cap apply. */
  function Delete(s: Store, body: DeleteBody, db: Database): (rep: Reply)
    ensures Status(rep.response) != 200 && db != FailsAfterCommit ==> rep.store == s
    ensures rep.store == s || (body.DeleteWords? && rep.store == DeleteAll(s, body.words))
    ensures rep.response.Deleted? <==> body.DeleteWords? && db == Available
    ensures rep.response == Rejected(NotAnArray) <==> body.DeleteNoWordsArray?
    ensures body.DeleteWords? && db != FailsBeforeCommit ==> rep.store == DeleteAll(s, body.words)
    ensures db == FailsBeforeCommit ==> rep.store == s
    ensures Status(rep.response) == 500 <==> body.DeleteUnreadable? || (body.DeleteWords? && db != Available)
    ensures Status(rep.response) == 400 <==> body.DeleteNoWordsArray?
    ensures Status(rep.response) == 200 ==> rep.response.Deleted?
  {
    match body
    case DeleteUnreadable => Reply(s, Rejected(ServerError))
    case DeleteNoWordsArray => Reply(s, Rejected(NotAnArray))
    case DeleteWords(ws) =>
      match db
      case FailsBeforeCommit => Reply(s, Rejected(ServerError))
      case FailsAfterCommit => Reply(DeleteAll(s, ws), Rejected(ServerError))
      case Available =>
        var t := DeleteAll(s, ws);
        var words := ReadAll(t);
        Reply(t, Deleted(|words|, words, |ws|))
  }

  /** A DELETE that runs changes the table this way: no listed word
      remains, every unlisted row keeps its word and id, no row appears,
      deleting only absent words changes nothing, and the invariant holds. */
  lemma DeleteSuccessTable(s: Store, ws: seq<string>)
    requires Valid(s)
    ensures var t := Delete(s, DeleteWords(ws), Available).store;
      && Valid(t)
      && (forall w :: w in ws ==> w !in WordSet(t))
      && (forall e :: e in s.rows && e.word !in ws ==> e in t.rows)
      && (forall e :: e in t.rows ==> e in s.rows)
      && ((forall w :: w in ws ==> w !in WordSet(s)) ==> t.rows == s.rows)
  {
    var t := DeleteAll(s, ws);
    assert Delete(s, DeleteWords(ws), Available).store == t;
    assert Valid(t) by {
      DeleteAllKeepsValid(s, ws);
    }
    assert forall w :: w in ws ==> w !in WordSet(t) by {
      forall w | w in ws ensures w !in WordSet(t) {
        WordSetMember(t, w);
      }
    }
    assert (forall w :: w in ws ==> w !in WordSet(s)) ==> t.rows == s.rows by {
      if forall w :: w in ws ==> w !in WordSet(s) {
        DeleteAbsentKeepsRows(s, ws);
      }
    }
  }

  /** The response of a DELETE that runs: `deletedCount` is the length of
      the request list, whether or not the words were stored, and the table
      is read back after the commit, newest first. */
  lemma DeleteSuccessResponse(s: Store, ws: seq<string>)
    requires IdsIncrease(s.rows) && WordsUnique(s.rows)
    ensures var rep := Delete(s, DeleteWords(ws), Available);
      && rep.response.deletedCount == |ws|
      && rep.response.wordCount == |rep.response.words|
      && AsSet(rep.response.words) == WordSet(rep.store)
      && OrderedByIdDesc(rep.store, rep.response.words)
  {
    DeleteAllKeepsOrder(s, ws);
    ReadAllNewestFirst(DeleteAll(s, ws));
  }

  /** Every DELETE keeps the table invariant, whatever the body and however
      the database behaves. */
  lemma DeleteKeepsValid(s: Store, body: DeleteBody, db: Database)
    requires Valid(s)
    ensures Valid(Delete(s, body, db).store)
  {
    if body.DeleteWords? {
      DeleteAllKeepsValid(s, body.words);
    }
  }

  /** Deleting only absent words leaves the rows as they were. */
  lemma DeleteAbsentKeepsRows(s: Store, ws: seq<string>)
    requires forall w :: w in ws ==> w !in WordSet(s)
    ensures DeleteAll(s, ws).rows == s.rows
  {
    var t := DeleteAll(s, ws);
    forall e | e in s.rows ensures e.word !in ws {
      var k :| 0 <= k < |s.rows| && s.rows[k] == e;
      assert WordColumn(s.rows)[k] == e.word;
    }
    WithoutAbsent(s, ws);
  }

  /** Deleting absent words, one by one, leaves the rows as they were. */
  lemma {:induction false} WithoutAbsent(s: Store, ws: seq<string>)
    requires forall e :: e in s.rows ==> e.word !in ws
    ensures DeleteAll(s, ws).rows == s.rows
    decreases |ws|
  {
    if |ws| > 0 {
      WithoutNoMatch(s.rows, ws[0]);
      WithoutAbsent(DeleteWord(s, ws[0]), ws[1..]);
    }
  }

  /** Removing a word no row holds keeps the rows. */
  lemma {:induction false} WithoutNoMatch(rows: seq<Entry>, w: string)
    requires forall e :: e in rows ==> e.word != w
    ensures Without(rows, w) == rows
    decreases |rows|
  {
    if |rows| > 0 {
      assert rows[0] in rows;
      assert forall e :: e in rows[1..] ==> e in rows;
      WithoutNoMatch(rows[1..], w);
      assert rows == [rows[0]] + rows[1..];
    }
  }

  /** A POST of words the table did not hold, followed by a DELETE of the
      words it reported as added, restores the table's rows and words. */
  lemma PostThenDeleteRestores(s: Store, items: seq<Element>)
    requires AcceptableBatch(items)
    requires forall i :: 0 <= i < |items| ==> CleanWord(items[i].text) !in WordSet(s)
    ensures var posted := Post(s, PostArray(items), Available);
            && posted.response.Added?
            && var deleted := Delete(posted.store, DeleteWords(posted.response.addedWords), Available);
               && (forall e :: e in deleted.store.rows <==> e in s.rows)
               && WordSet(deleted.store) == WordSet(s)
  {
    PostAccepted(s, items, Available);
    var cleaned := CleanBatch(items).value;
    assert forall w :: w in cleaned ==> w !in WordSet(s) by {
      forall w | w in cleaned ensures w !in WordSet(s) {
        var i :| 0 <= i < |items| && CleanedText(items[i]) == w;
      }
    }
    CommitThenDeleteRestores(s, cleaned);
  }

  /** A committed insert of absent words, followed by a DELETE of the words
      it reported as added, restores the table's rows and words. */
  lemma CommitThenDeleteRestores(s: Store, cleaned: seq<string>)
    requires forall w :: w in cleaned ==> w !in WordSet(s)
    ensures var posted := CommitInsert(s, cleaned, Available);
            && posted.response.Added?
            && var deleted := Delete(posted.store, DeleteWords(posted.response.addedWords), Available);
               && (forall e :: e in deleted.store.rows <==> e in s.rows)
               && WordSet(deleted.store) == WordSet(s)
  {
    InsertThenDeleteRestores(s, cleaned);
  }
}

=== FILE: store.dfy ===
/** The `words` table behind the route: rows of (id, word), where `id` comes
    from a serial sequence and `word` carries a uniqueness constraint.

    The table is kept as its rows in ascending id order together with the
    next value of the id sequence. Statements of one transaction run one
    after the other on the request's single connection, so a batch is
    applied in list order. */
module WordStore {
  import opened Words

  /** One row of the table. */
  datatype Entry = Entry(id: nat, word: string)

  /** The table: its rows, oldest first, and the next serial id. */
  datatype Store = Store(rows: seq<Entry>, nextId: nat)

  /** The table as first created: no rows, the serial sequence at 1. */
  const EmptyStore: Store := Store([], 1)

  /** The empty table satisfies the table invariant. */
  lemma EmptyValid()
    ensures Valid(EmptyStore)
    ensures WordSet(EmptyStore) == {}
  {
  }

  /** A word the route can have stored: valid and already in cleaned form. */
  predicate IsStorable(w: string) {
    IsValidWord(w) && CleanWord(w) == w
  }

  /** Ids grow with insertion order. */
  ghost predicate IdsIncrease(rows: seq<Entry>) {
    forall i, j :: 0 <= i < j < |rows| ==> rows[i].id < rows[j].id
  }

  /** The uniqueness constraint on the `word` column. */
  ghost predicate WordsUnique(rows: seq<Entry>) {
    forall i, j :: 0 <= i < j < |rows| ==> rows[i].word != rows[j].word
  }

  /** The table invariant: increasing ids below the next serial value,
      unique words, and only storable words. */
  ghost predicate Valid(s: Store) {
    && IdsIncrease(s.rows)
    && WordsUnique(s.rows)
    && (forall i :: 0 <= i < |s.rows| ==> s.rows[i].id < s.nextId)
    && (forall i :: 0 <= i < |s.rows| ==> IsStorable(s.rows[i].word))
  }

  /** The `word` column, row by row. */
  function WordColumn(rows: seq<Entry>): (ws: seq<string>)
    ensures |ws| == |rows|
  {
    seq(|rows|, i requires 0 <= i < |rows| => rows[i].word)
  }

  /** The set of stored words. */
  function WordSet(s: Store): set<string> {
    set w | w in WordColumn(s.rows)
  }

  /** The words of a list, as a set. */
  function AsSet(ws: seq<string>): set<string> {
    set w | w in ws
  }

  lemma WordColumnAppend(rows: seq<Entry>, e: Entry)
    ensures WordColumn(rows + [e]) == WordColumn(rows) + [e.word]
  {
  }

  /** Appending a row adds its word to the word set. */
  lemma WordSetAppend(s: Store, e: Entry, nextId: nat)
    ensures WordSet(Store(s.rows + [e], nextId)) == WordSet(s) + {e.word}
  {
    WordColumnAppend(s.rows, e);
  }

  /** A word is stored exactly when some row holds it. */
  lemma WordSetMember(s: Store, w: string)
    ensures w in WordSet(s) <==> exists e :: e in s.rows && e.word == w
  {
    if w in WordColumn(s.rows) {
      var k :| 0 <= k < |s.rows| && WordColumn(s.rows)[k] == w;
      assert s.rows[k] in s.rows;
    }
    if exists e :: e in s.rows && e.word == w {
      var e :| e in s.rows && e.word == w;
      var k :| 0 <= k < |s.rows| && s.rows[k] == e;
      assert WordColumn(s.rows)[k] == w;
    }
  }

  // ---------------------------------------------------------------------
  // INSERT INTO words (word) VALUES ($1) ON CONFLICT (word) DO NOTHING
  // ---------------------------------------------------------------------

  /** One conditional insert: a word already in the table is left alone,
      a new word gets the next serial id. */
  function InsertWord(s: Store, w: string): (r: Store)
    ensures WordSet(r) == WordSet(s) + {w}
    ensures s.rows <= r.rows && s.nextId <= r.nextId
    ensures forall k :: |s.rows| <= k < |r.rows| ==> s.nextId <= r.rows[k].id < r.nextId
    ensures forall k :: |s.rows| <= k < |r.rows| ==> r.rows[k].word == w && w !in WordSet(s)
    ensures w in WordSet(s) ==> r == s
  {
    if w in WordColumn(s.rows) then s
    else
      WordSetAppend(s, Entry(s.nextId, w), s.nextId + 1);
      Store(s.rows + [Entry(s.nextId, w)], s.nextId + 1)
  }

  /** A conditional insert of a storable word keeps the table invariant. */
  lemma InsertWordKeepsValid(s: Store, w: string)
    requires Valid(s) && IsStorable(w)
    ensures Valid(InsertWord(s, w))
  {
    if w !in WordColumn(s.rows) {
      var r := InsertWord(s, w);
      var n := |s.rows|;
      assert r.rows[n] == Entry(s.nextId, w);
      forall i | 0 <= i < n ensures r.rows[i].word != w {
        assert WordColumn(s.rows)[i] == s.rows[i].word;
      }
    }
  }

  /** The inserts of one batch, in list order. */
  function InsertAll(s: Store, ws: seq<string>): (r: Store)
    ensures WordSet(r) == WordSet(s) + AsSet(ws)
    ensures s.rows <= r.rows && s.nextId <= r.nextId
    ensures (forall w :: w in ws ==> w in WordSet(s)) ==> r == s
    decreases |ws|
  {
    if |ws| == 0 then s
    else
      var s1 := InsertWord(s, ws[0]);
      assert AsSet(ws) == {ws[0]} + AsSet(ws[1..]) by {
        assert ws == [ws[0]] + ws[1..];
      }
      InsertAll(s1, ws[1..])
  }

  /** The rows of `r` past those of `s` hold words of `ws` absent from `s`,
      with ids from the serial range between `s` and `r`. */
  ghost predicate AddedRows(s: Store, r: Store, ws: seq<string>) {
    forall k :: |s.rows| <= k < |r.rows| ==>
      && s.nextId <= r.rows[k].id < r.nextId
      && r.rows[k].word in ws
      && r.rows[k].word !in WordSet(s)
  }

  /** The rows a batch adds hold absent batch words, with ids from the serial
      range, so they are newer than every old row. */
  lemma {:induction false} InsertAllNewRows(s: Store, ws: seq<string>)
    ensures AddedRows(s, InsertAll(s, ws), ws)
    decreases |ws|
  {
    if |ws| > 0 {
      var s1 := InsertWord(s, ws[0]);
      var r := InsertAll(s1, ws[1..]);
      InsertAllNewRows(s1, ws[1..]);
      assert InsertAll(s, ws) == r;
      forall k | |s.rows| <= k < |r.rows|
        ensures s.nextId <= r.rows[k].id < r.nextId
        ensures r.rows[k].word in ws && r.rows[k].word !in WordSet(s)
      {
        if k < |s1.rows| {
          assert r.rows[k] == s1.rows[k];
        } else {
          assert r.rows[k].word in ws[1..];
        }
      }
    }
  }

  /** The inserts of a batch of storable words keep the table invariant. */
  lemma {:induction false} InsertAllKeepsValid(s: Store, ws: seq<string>)
    requires Valid(s)
    requires forall w :: w in ws ==> IsStorable(w)
    ensures Valid(InsertAll(s, ws))
    decreases |ws|
  {
    if |ws| > 0 {
      InsertWordKeepsValid(s, ws[0]);
      InsertAllKeepsValid(InsertWord(s, ws[0]), ws[1..]);
    }
  }

  // ---------------------------------------------------------------------
  // DELETE FROM words WHERE word = $1
  // ---------------------------------------------------------------------

  /** The rows whose word is not `w`, in their original order. */
  function Without(rows: seq<Entry>, w: string): (r: seq<Entry>)
    ensures forall e :: e in r <==> e in rows && e.word != w
    ensures |r| <= |rows|
    decreases |rows|
  {
    if |rows| == 0 then []
    else (if rows[0].word == w then [] else [rows[0]]) + Without(rows[1..], w)
  }

  /** Dropping rows keeps the ids of the rest increasing. */
  lemma {:induction false} WithoutKeepsIdsIncreasing(rows: seq<Entry>, w: string)
    requires IdsIncrease(rows)
    ensures IdsIncrease(Without(rows, w))
    decreases |rows|
  {
    if |rows| > 0 {
      var tail := rows[1..];
      WithoutKeepsIdsIncreasing(tail, w);
      var r := Without(rows, w);
      var rt := Without(tail, w);
      if rows[0].word != w {
        assert r == [rows[0]] + rt;
        forall j | 1 <= j < |r| ensures rows[0].id < r[j].id {
          assert r[j] in tail;
        }
      }
    }
  }

  /** Dropping rows keeps the words of the rest unique. */
  lemma {:induction false} WithoutKeepsWordsUnique(rows: seq<Entry>, w: string)
    requires WordsUnique(rows)
    ensures WordsUnique(Without(rows, w))
    decreases |rows|
  {
    if |rows| > 0 {
      var tail := rows[1..];
      WithoutKeepsWordsUnique(tail, w);
      var r := Without(rows, w);
      var rt := Without(tail, w);
      if rows[0].word != w {
        assert r == [rows[0]] + rt;
        forall j | 1 <= j < |r| ensures rows[0].word != r[j].word {
          assert r[j] in tail;
        }
      }
    }
  }

  /** One delete: the row holding `w`, if any, disappears; nothing else
      changes. */
  function DeleteWord(s: Store, w: string): (r: Store)
    ensures forall e :: e in r.rows <==> e in s.rows && e.word != w
    ensures r.nextId == s.nextId
  {
    Store(Without(s.rows, w), s.nextId)
  }

  /** A delete keeps the table invariant. */
  lemma DeleteWordKeepsValid(s: Store, w: string)
    requires Valid(s)
    ensures Valid(DeleteWord(s, w))
  {
    WithoutKeepsIdsIncreasing(s.rows, w);
    WithoutKeepsWordsUnique(s.rows, w);
    var r := DeleteWord(s, w);
    forall i | 0 <= i < |r.rows| ensures r.rows[i].id < s.nextId && IsStorable(r.rows[i].word) {
      assert r.rows[i] in s.rows;
    }
  }

  /** The deletes of one batch, in list order. */
  function DeleteAll(s: Store, ws: seq<string>): (r: Store)
    ensures forall e :: e in r.rows <==> e in s.rows && e.word !in ws
    ensures r.nextId == s.nextId
    decreases |ws|
  {
    if |ws| == 0 then s
    else DeleteAll(DeleteWord(s, ws[0]), ws[1..])
  }

  /** The deletes of a batch keep the table invariant. */
  lemma {:induction false} DeleteAllKeepsValid(s: Store, ws: seq<string>)
    requires Valid(s)
    ensures Valid(DeleteAll(s, ws))
    decreases |ws|
  {
    if |ws| > 0 {
      DeleteWordKeepsValid(s, ws[0]);
      DeleteAllKeepsValid(DeleteWord(s, ws[0]), ws[1..]);
    }
  }

  /** The deletes of a batch keep the ids increasing and the words unique,
      whatever words the table holds. */
  lemma {:induction false} DeleteAllKeepsOrder(s: Store, ws: seq<string>)
    requires IdsIncrease(s.rows) && WordsUnique(s.rows)
    ensures var r := DeleteAll(s, ws); IdsIncrease(r.rows) && WordsUnique(r.rows)
    decreases |ws|
  {
    if |ws| > 0 {
      WithoutKeepsIdsIncreasing(s.rows, ws[0]);
      WithoutKeepsWordsUnique(s.rows, ws[0]);
      DeleteAllKeepsOrder(DeleteWord(s, ws[0]), ws[1..]);
    }
  }

  /** Two tables with the same rows hold the same words. */
  lemma SameRowsSameWords(a: Store, b: Store)
    requires forall e :: e in a.rows <==> e in b.rows
    ensures WordSet(a) == WordSet(b)
  {
    forall w | w in WordColumn(a.rows) ensures w in WordColumn(b.rows) {
      var k :| 0 <= k < |a.rows| && WordColumn(a.rows)[k] == w;
      assert a.rows[k] in b.rows;
      var j :| 0 <= j < |b.rows| && b.rows[j] == a.rows[k];
      assert WordColumn(b.rows)[j] == w;
    }
    forall w | w in WordColumn(b.rows) ensures w in WordColumn(a.rows) {
      var k :| 0 <= k < |b.rows| && WordColumn(b.rows)[k] == w;
      assert b.rows[k] in a.rows;
      var j :| 0 <= j < |a.rows| && a.rows[j] == b.rows[k];
      assert WordColumn(a.rows)[j] == w;
    }
  }

  /** Deleting the words of a batch whose words were all absent undoes
      inserting it: the same rows, with their ids, and the same word set. */
  lemma InsertThenDeleteRestores(s: Store, ws: seq<string>)
    requires forall w :: w in ws ==> w !in WordSet(s)
    ensures forall e :: e in DeleteAll(InsertAll(s, ws), ws).rows <==> e in s.rows
    ensures WordSet(DeleteAll(InsertAll(s, ws), ws)) == WordSet(s)
  {
    var r := InsertAll(s, ws);
    var d := DeleteAll(r, ws);
    InsertAllNewRows(s, ws);
    forall e | e in s.rows ensures e.word !in ws && e in r.rows {
      var k :| 0 <= k < |s.rows| && s.rows[k] == e;
      assert WordColumn(s.rows)[k] == e.word;
      assert r.rows[k] == e;
    }
    forall e | e in r.rows ensures e in s.rows || e.word in ws {
      var k :| 0 <= k < |r.rows| && r.rows[k] == e;
      if k < |s.rows| { assert s.rows[k] == e; }
    }
    SameRowsSameWords(d, s);
  }

  // ---------------------------------------------------------------------
  // SELECT word FROM words ORDER BY id DESC
  // ---------------------------------------------------------------------

  /** The `word` column read from the newest row to the oldest. */
  function NewestFirst(rows: seq<Entry>): (r: seq<string>)
    ensures |r| == |rows|
    ensures forall i :: 0 <= i < |r| ==> r[i] == rows[|rows| - 1 - i].word
    decreases |rows|
  {
    if |rows| == 0 then []
    else [rows[|rows| - 1].word] + NewestFirst(rows[..|rows| - 1])
  }

  /** `getWords`. */
  function ReadAll(s: Store): (r: seq<string>)
    ensures |r| == |s.rows|
    ensures forall i :: 0 <= i < |r| ==> r[i] == s.rows[|s.rows| - 1 - i].word
  {
    NewestFirst(s.rows)
  }

  /** Of any two words read back, the earlier one sits in the row with the
      larger id. */
  ghost predicate OrderedByIdDesc(s: Store, r: seq<string>) {
    forall i, j, p, q ::
      0 <= i < j < |r| && 0 <= p < |s.rows| && 0 <= q < |s.rows| &&
      s.rows[p].word == r[i] && s.rows[q].word == r[j]
      ==> s.rows[p].id > s.rows[q].id
  }

  /** The read-back holds exactly the stored words, whatever the table. */
  lemma ReadAllSet(s: Store)
    ensures AsSet(ReadAll(s)) == WordSet(s)
  {
    var r := ReadAll(s);
    var n := |s.rows|;
    forall w | w in r ensures w in WordColumn(s.rows) {
      var i :| 0 <= i < |r| && r[i] == w;
      assert WordColumn(s.rows)[n - 1 - i] == w;
    }
    forall w | w in WordColumn(s.rows) ensures w in r {
      var k :| 0 <= k < n && WordColumn(s.rows)[k] == w;
      assert r[n - 1 - k] == w;
    }
  }

  /** On a valid table the read-back has no repeated word, and of two words
      read back the earlier one sits in the row with the larger id. */
  lemma ReadAllOrdered(s: Store)
    requires IdsIncrease(s.rows) && WordsUnique(s.rows)
    ensures forall i, j :: 0 <= i < j < |ReadAll(s)| ==> ReadAll(s)[i] != ReadAll(s)[j]
    ensures OrderedByIdDesc(s, ReadAll(s))
  {
    var r := ReadAll(s);
    var n := |s.rows|;
    forall i, j, p, q |
      0 <= i < j < |r| && 0 <= p < n && 0 <= q < n &&
      s.rows[p].word == r[i] && s.rows[q].word == r[j]
      ensures s.rows[p].id > s.rows[q].id
    {
      assert p == n - 1 - i;
      assert q == n - 1 - j;
    }
  }

  /** The read-back lists every stored word exactly once, newest first. */
  lemma ReadAllNewestFirst(s: Store)
    requires IdsIncrease(s.rows) && WordsUnique(s.rows)
    ensures AsSet(ReadAll(s)) == WordSet(s)
    ensures forall i, j :: 0 <= i < j < |ReadAll(s)| ==> ReadAll(s)[i] != ReadAll(s)[j]
    ensures OrderedByIdDesc(s, ReadAll(s))
  {
    ReadAllSet(s);
    ReadAllOrdered(s);
  }
}

=== FILE: words.dfy ===
/** Normalisation and validation of a single candidate word: the route's
    `cleanWord` and `isValidWord`, with the limits the route declares. */
module Words {
  import opened Alphabet

  /** Longest word, in characters, that `isValidWord` accepts. */
  const MAX_WORD_LENGTH: nat := 50

  /** Largest raw batch a POST may carry. */
  const MAX_WORDS_PER_REQUEST: nat := 100

  // ---------------------------------------------------------------------
  // Stripping: `replace(/[^class]/g, '')`
  // ---------------------------------------------------------------------

  /** Deletes every character outside the bracket class, keeping the order
      of the rest. */
  function Strip(w: string): (r: string)
    ensures AllInAlphabet(r)
    ensures |r| <= |w|
  {
    if |w| == 0 then []
    else (if InAlphabet(w[0]) then [w[0]] else []) + Strip(w[1..])
  }

  /** Stripping works character by character: it distributes over
      concatenation. */
  lemma {:induction false} StripAppend(a: string, b: string)
    ensures Strip(a + b) == Strip(a) + Strip(b)
    decreases |a|
  {
    if |a| > 0 {
      assert (a + b)[1..] == a[1..] + b;
      StripAppend(a[1..], b);
    } else {
      assert a + b == b;
    }
  }

  /** Stripping deletes exactly the characters outside the class: each
      character of the class keeps its number of occurrences, every other
      character disappears. */
  lemma {:induction false} StripCounts(w: string, c: char)
    ensures multiset(Strip(w))[c] == if InAlphabet(c) then multiset(w)[c] else 0
    decreases |w|
  {
    if |w| > 0 {
      StripCounts(w[1..], c);
      assert w == [w[0]] + w[1..];
    }
  }

  /** A word is left untouched by stripping exactly when it is already
      alphabet-only. */
  lemma {:induction false} StripFixesExactlyAlphabetWords(w: string)
    ensures Strip(w) == w <==> AllInAlphabet(w)
    decreases |w|
  {
    if |w| > 0 {
      StripFixesExactlyAlphabetWords(w[1..]);
      if AllInAlphabet(w) {
        assert AllInAlphabet(w[1..]) by {
          forall i | 0 <= i < |w[1..]| ensures InAlphabet(w[1..][i]) {
            assert w[1..][i] == w[i + 1];
          }
        }
        assert w == [w[0]] + w[1..];
      }
    }
  }

  // ---------------------------------------------------------------------
  // Trimming: `String.prototype.trim`
  // ---------------------------------------------------------------------

  /** Index of the first character at or after `i` that is not whitespace,
      or `|w|` when there is none. */
  function SkipLeading(w: string, i: nat): (n: nat)
    requires i <= |w|
    ensures i <= n <= |w|
    ensures forall k :: i <= k < n ==> IsWhitespace(w[k])
    ensures n == |w| || !IsWhitespace(w[n])
    decreases |w| - i
  {
    if i < |w| && IsWhitespace(w[i]) then SkipLeading(w, i + 1) else i
  }

  /** Index just past the last character before `j` that is not whitespace,
      never going below `lo`. */
  function SkipTrailing(w: string, lo: nat, j: nat): (n: nat)
    requires lo <= j <= |w|
    ensures lo <= n <= j
    ensures forall k :: n <= k < j ==> IsWhitespace(w[k])
    ensures n == lo || !IsWhitespace(w[n - 1])
    decreases j
  {
    if j > lo && IsWhitespace(w[j - 1]) then SkipTrailing(w, lo, j - 1) else j
  }

  /** `String.prototype.trim`: drops the leading and the trailing
      whitespace. */
  function Trim(w: string): (r: string)
    ensures NoOuterWhitespace(r)
    ensures |r| <= |w|
  {
    var i := SkipLeading(w, 0);
    var j := SkipTrailing(w, i, |w|);
    assert i < j ==> !IsWhitespace(w[i]) && !IsWhitespace(w[j - 1]);
    w[i..j]
  }

  /** What `Trim` removes is whitespace on both sides of the result. */
  lemma TrimSplits(w: string) returns (a: string, b: string)
    ensures AllWhitespace(a) && AllWhitespace(b)
    ensures w == a + Trim(w) + b
  {
    var i := SkipLeading(w, 0);
    var j := SkipTrailing(w, i, |w|);
    a, b := w[..i], w[j..];
    assert w == a + w[i..j] + b;
    assert AllWhitespace(a) by {
      forall k | 0 <= k < |a| ensures IsWhitespace(a[k]) {
        assert a[k] == w[k];
      }
    }
    assert AllWhitespace(b) by {
      forall k | 0 <= k < |b| ensures IsWhitespace(b[k]) {
        assert b[k] == w[j + k];
      }
    }
  }

  /** Independent characterisation of `Trim`: whatever whitespace surrounds a
      middle that neither starts nor ends with whitespace, trimming returns
      exactly that middle. */
  lemma TrimReturnsTheMiddle(a: string, m: string, b: string)
    requires AllWhitespace(a) && AllWhitespace(b) && NoOuterWhitespace(m)
    ensures Trim(a + m + b) == m
  {
    var w := a + m + b;
    var i := SkipLeading(w, 0);
    var j := SkipTrailing(w, i, |w|);
    if |m| > 0 {
      assert w[|a|] == m[0];
      assert w[|a| + |m| - 1] == m[|m| - 1];
      forall k | 0 <= k < |a| ensures IsWhitespace(w[k]) {
        assert w[k] == a[k];
      }
      // `i` is the first non-whitespace index, and so is `|a|`.
      assert i == |a|;
      forall k | |a| + |m| <= k < |w| ensures IsWhitespace(w[k]) {
        assert w[k] == b[k - |a| - |m|];
      }
      assert j == |a| + |m|;
      assert w[i..j] == m;
    } else {
      forall k | 0 <= k < |w| ensures IsWhitespace(w[k]) {
        if k < |a| { assert w[k] == a[k]; } else { assert w[k] == b[k - |a|]; }
      }
      assert i == |w|;
    }
  }

  /** Trimming leaves a word alone exactly when it has no outer whitespace. */
  lemma TrimFixesExactlyUntrimmable(w: string)
    ensures Trim(w) == w <==> NoOuterWhitespace(w)
  {
    if NoOuterWhitespace(w) {
      TrimReturnsTheMiddle([], w, []);
      assert [] + w + [] == w;
    }
  }

  // ---------------------------------------------------------------------
  // cleanWord and isValidWord
  // ---------------------------------------------------------------------

  /** `cleanWord`: strip the characters outside the class, then trim. */
  function CleanWord(w: string): (r: string)
    ensures AllInAlphabet(r)
    ensures NoOuterWhitespace(r)
    ensures |r| <= |w|
  {
    var s := Strip(w);
    var r := Trim(s);
    assert AllInAlphabet(r) by {
      var a, b := TrimSplits(s);
      forall i | 0 <= i < |r| ensures InAlphabet(r[i]) {
        assert r[i] == s[|a| + i];
      }
    }
    r
  }

  /** Cleaning twice is cleaning once. */
  lemma CleanWordIdempotent(w: string)
    ensures CleanWord(CleanWord(w)) == CleanWord(w)
  {
    var c := CleanWord(w);
    StripFixesExactlyAlphabetWords(c);
    TrimFixesExactlyUntrimmable(c);
  }

  /** The words that cleaning leaves unchanged are exactly the alphabet-only
      words without outer whitespace. */
  lemma CleanWordFixedPoints(w: string)
    ensures CleanWord(w) == w <==> AllInAlphabet(w) && NoOuterWhitespace(w)
  {
    if AllInAlphabet(w) && NoOuterWhitespace(w) {
      StripFixesExactlyAlphabetWords(w);
      TrimFixesExactlyUntrimmable(w);
    }
  }

  /** Cleaning keeps the middle of the stripped word: what it trims away is
      whitespace on both sides. */
  lemma CleanWordIsStrippedMiddle(w: string) returns (a: string, b: string)
    ensures AllWhitespace(a) && AllWhitespace(b)
    ensures Strip(w) == a + CleanWord(w) + b
  {
    a, b := TrimSplits(Strip(w));
  }

  /** The regular expression `^[class]+$` as a left-to-right matcher: one or
      more characters, each in the class, up to the end of the input. */
  predicate MatchesClassPlus(w: string)
    decreases |w|
  {
    |w| > 0 && InAlphabet(w[0]) && (|w| == 1 || MatchesClassPlus(w[1..]))
  }

  /** `isValidWord`: the regular expression matches and the word is at most
      `MAX_WORD_LENGTH` long. */
  predicate IsValidWord(w: string) {
    MatchesClassPlus(w) && |w| <= MAX_WORD_LENGTH
  }

  /** The matcher accepts exactly the non-empty alphabet-only words. */
  lemma {:induction false} MatchesClassPlusSpec(w: string)
    ensures MatchesClassPlus(w) <==> |w| > 0 && AllInAlphabet(w)
    decreases |w|
  {
    if |w| > 1 {
      MatchesClassPlusSpec(w[1..]);
      if InAlphabet(w[0]) && AllInAlphabet(w[1..]) {
        forall i | 0 <= i < |w| ensures InAlphabet(w[i]) {
          if i > 0 { assert w[i] == w[1..][i - 1]; }
        }
      }
      if AllInAlphabet(w) {
        forall i | 0 <= i < |w[1..]| ensures InAlphabet(w[1..][i]) {
          assert w[1..][i] == w[i + 1];
        }
      }
    }
  }

  /** `isValidWord(w)` holds iff `w` is non-empty, alphabet-only and at most
      `MAX_WORD_LENGTH` characters long. */
  lemma IsValidWordSpec(w: string)
    ensures IsValidWord(w) <==> 0 < |w| <= MAX_WORD_LENGTH && AllInAlphabet(w)
  {
    MatchesClassPlusSpec(w);
  }

  /** The length boundary: fifty letters pass, fifty-one fail. */
  lemma LengthBoundary()
    ensures IsValidWord(seq(50, _ => 'a'))
    ensures !IsValidWord(seq(51, _ => 'a'))
  {
    IsValidWordSpec(seq(50, _ => 'a'));
    IsValidWordSpec(seq(51, _ => 'a'));
  }

  /** A non-empty cleaned word can only be invalid by being too long. */
  lemma CleanedWordValidity(w: string)
    requires CleanWord(w) != []
    ensures IsValidWord(CleanWord(w)) <==> |CleanWord(w)| <= MAX_WORD_LENGTH
  {
    IsValidWordSpec(CleanWord(w));
  }

  /** Cleaning normalises before validating: a digit is dropped rather than
      rejected, so `"wrong1"` is cleaned to the valid word `"wrong"`. */
  lemma CleanWordDropsDigit()
    ensures CleanWord("wrong1") == "wrong"
    ensures IsValidWord("wrong")
  {
    var good := "wrong";
    StripDropsDigit();
    assert NoOuterWhitespace(good);
    TrimFixesExactlyUntrimmable(good);
    WrongIsValid();
  }

  /** Stripping `"wrong1"` drops the digit and keeps the letters. */
  lemma StripDropsDigit()
    ensures Strip("wrong1") == "wrong"
  {
    var good := "wrong";
    assert AllInAlphabet(good);
    StripDropsForeign(good, '1');
    assert good + ['1'] == "wrong1";
  }

  /** A character outside the class after an alphabet-only word is
      dropped. */
  lemma StripDropsForeign(w: string, x: char)
    requires AllInAlphabet(w) && !InAlphabet(x)
    ensures Strip(w + [x]) == w
  {
    StripAppend(w, [x]);
    StripFixesExactlyAlphabetWords(w);
  }

  /** `"wrong"` is a valid word. */
  lemma WrongIsValid()
    ensures IsValidWord("wrong")
  {
    var w := "wrong";
    assert AllInAlphabet(w);
    IsValidWordSpec(w);
  }

  /** A candidate made only of digits, punctuation and spaces cleans to the
      empty word. */
  lemma CleanWordEmptiesForeignCandidate()
    ensures CleanWord(" 42! ") == []
  {
    assert Strip(" ") == " ";
    assert Strip("!") == [];
    assert Strip("2") == [];
    assert Strip("4") == [];
    StripAppend("!", " ");
    StripAppend("2", "! ");
    StripAppend("4", "2! ");
    StripAppend(" ", "42! ");
    assert Strip(" 42! ") == "  ";
    TrimReturnsTheMiddle("  ", [], []);
    assert "  " + [] + [] == "  ";
  }
}
